=== FILE: README.md ===
# nofeardb core, modelled in Dafny

nofeardb is a file-backed document store with an object-relational mapping
layer: application classes derived from `Document` declare `Field` and
`Relationship` attributes, and documents are written as JSON files. At this
snapshot of the repository the storage engine is still a stub, and the logic
that exists is in four small pieces, each modelled here as one Dafny module:

- `orm.dfy` (module `Orm`): the `Document` base class with its lifecycle
  status, its list of changed field names and its attribute values, and the
  `Field` / `Relationship` descriptors that read and write those values. A
  `Field` write records the field's name the first time it changes; a
  `Relationship` write only stores the value. `Document` is a Dafny class whose
  methods update its fields in place.
- `filters.dfy` (module `Filters`): the query result `QueryFilter`
  with `where`, `all`, `first` and `last`; `where` is a method with the
  source's loop.
- `expressions.dfy` (module `Expressions`): query predicates: comparisons of
  one named attribute against a constant (`eq`, `neq`, `lt`, `lte`, `gt`,
  `gte`, `is_in`) and short-circuit `and_` / `or_`, evaluated over a document's
  attributes. Comparisons follow Python's rules for built-in values: a bool is
  the integer 0 or 1, strings and lists compare lexicographically, `==` between
  unrelated types is false and an ordering between them raises TypeError.
- `datatypes.dfy` (module `Datatypes`): the `Integer` and `String` converters
  (`cast`, `serialize`, `deserialize`).
- `runtime.dfy` (modules `Runtime`, `Enums`): the Python values a document
  attribute can hold, the exceptions raised, a `Result` type for "returns or
  raises", and `DocumentStatus`.

The repository's engine tests (tests/test_engine.py:735 and 745) expect a
`DocumentStatus.LAZY`, which src/nofeardb/enums.py:4-8 does not define: the
code at this snapshot has four statuses (NEW, SYNC, MOD, DEL), and its
`Field.__set__` neither reads nor changes the status. The model follows the
code, and `SetField` is proved to leave the status alone.

Two client methods in `orm.dfy` replay document scenarios with assertions:
`ChangedFieldsModifiedModel` is the test `test_changed_data_fields_modified_model`
(tests/test_models.py:33-55), and `RewritesAndRelationships` shows that a
rewrite of a listed field and a Relationship write record nothing.

Every operation that can raise returns a `Result`: `Ok(value)` or
`Err(error)` naming the Python exception.

## Model

| member | source | states |
|---|---|---|
| `Orm.Document.constructor` | src/nofeardb/orm.py:15-17 | a new document has status NEW, an empty changed-field list and no attribute values |
| `Orm.Document.DocumentName` | src/nofeardb/orm.py:19-23 | the declared `__documentname__` when there is one, otherwise the class name lower-cased |
| `Orm.LowerAscii` | src/nofeardb/orm.py:23 | lower-casing keeps the length, leaves no upper-case letter, changes only upper-case letters and maps each to its lower-case partner |
| `Orm.LowerAsciiIdempotent` | src/nofeardb/orm.py:23 | a derived document name is already lower case: lower-casing it again changes nothing |
| `Orm.Document.Get` | src/nofeardb/orm.py:37-38 | reading a Field or Relationship returns the stored value, and raises KeyError exactly when it was never written (`Field.__get__` at lines 55-56 is the same code) |
| `Orm.Document.SetRelationship` | src/nofeardb/orm.py:40-41 | writing a Relationship stores the value, every other attribute reads as before, and neither the changed-field list nor the status changes |
| `Orm.TrackChange` | src/nofeardb/orm.py:59-60 | a Field write appends the name exactly when it is absent (the new list is the old one plus the name) and otherwise leaves the list unchanged; the old list is a prefix of the new one, the members are the old ones plus the name, a duplicate-free list stays duplicate-free |
| `Orm.Document.SetField` | src/nofeardb/orm.py:58-62 | writing a Field appends its name to the changed-field list exactly when the name is not yet listed, stores the value so that the field reads it back, and leaves every other attribute and the status unchanged |
| `Orm.ChangedFieldsInFirstWriteOrder` | src/nofeardb/orm.py:58-62 | after any sequence of Field writes starting from an empty list, the list holds each written name exactly once, ordered by first write |
| `Orm.ChangedFieldsListWrittenNames` | src/nofeardb/orm.py:58-62 | after any sequence of Field writes from an empty list, the list holds exactly the written names, each once |
| `Orm.ChangedFieldsOrdered` | src/nofeardb/orm.py:58-62 | after any sequence of Field writes from an empty list, the listed names are ordered by their first write |
| `Filters.NewQueryFilter` | src/nofeardb/filter.py:10-14 | a missing original becomes the empty list; a missing selection becomes the original, while a given selection, even an empty one, is kept |
| `Filters.QueryFilter.Where` | src/nofeardb/filter.py:16-22 | the new filter carries the same original; its selection is the whole current selection, in order, when the condition object is truthy and empty when it is not |
| `Filters.QueryFilter.All` | src/nofeardb/filter.py:24-26 | `all` returns the current selection itself |
| `Filters.QueryFilter.First` | src/nofeardb/filter.py:28-33 | `first` returns element 0 of the selection and raises NoResultFound exactly when the selection is empty |
| `Filters.QueryFilter.Last` | src/nofeardb/filter.py:35-40 | `last` returns the final element of the selection and raises NoResultFound exactly when the selection is empty |
| `Filters.WhereChain` | src/nofeardb/filter.py:11-22 | any chain of `where` calls keeps the original documents; once a falsy condition empties the selection no later call refills it |
| `Filters.FirstAndLastAfterWhere` | src/nofeardb/filter.py:16-40 | after `where`, `first` and `last` give what they gave before when the condition is truthy, and raise NoResultFound when it is falsy |
| `Filters.WhereIgnoresExpression` | src/nofeardb/filter.py:18-21 | `where` given any expression returns a filter equal to its receiver: the expression is never evaluated on a document |
| `Filters.WhereKeepsNonMatchingDocument` | src/nofeardb/filter.py:18-21 | selecting `a == 1` from documents with `a` = 1 and `a` = 2 keeps the second document, for which the expression is false |
| `Filters.MatchingSucceeds` | src/nofeardb/filter.py:16-22 | (corrected `where`) the per-document selection succeeds exactly when the expression evaluates without raising on every document |
| `Filters.MatchingSelects` | src/nofeardb/filter.py:16-22 | (corrected `where`) a successful selection holds each document the expression is true of exactly as often as the input does, and no document it is not true of |
| `Filters.MatchingCounts` | src/nofeardb/filter.py:16-22 | (corrected `where`) in a successful selection each document occurs as often as in the input when the expression is true of it, and never otherwise |
| `Filters.MatchingKeepsOrder` | src/nofeardb/filter.py:16-22 | (corrected `where`) a successful selection is a subsequence of the input: its documents keep their input order (with `MatchingSelects` this fixes the selection uniquely) |
| `Filters.WhereMatching` | src/nofeardb/filter.py:16-22 | (corrected `where`) its loop returns the per-document selection with the same original, or the error of the first document on which evaluation raises |
| `Expressions.Eval` | src/nofeardb/expr.py:23-53 | a leaf raises AttributeError exactly when the document lacks the attribute, applies the comparison as `op(attribute, value)` and containment as `contains(value, attribute)` |
| `Expressions.Compare` | src/nofeardb/expr.py:29 | a comparison can only raise TypeError, `==` and `!=` never raise, comparing two numbers or two strings always succeeds, and an ordering raises TypeError with None on either side and between any two values that are not both numbers, both strings or both lists |
| `Expressions.StrLtIsLexicographic` | src/nofeardb/expr.py:29 | `s < t` on strings holds exactly when `s` is a proper prefix of `t` or, at the first position where they differ, the character of `s` has the smaller code point |
| `Expressions.ListLtIsLexicographic` | src/nofeardb/expr.py:29 | `xs < ys` on lists holds exactly when `xs` is shorter and its items equal those of `ys` at the same positions, or at the first position whose items are not equal the item of `xs` is below the item of `ys`; it raises exactly when the comparison of those first unequal items raises |
| `Expressions.StringOrderingExample` | src/nofeardb/expr.py:62-63 | `lt("name", "m")` is true of a document whose name is `"alice"`, `lt("name", "alice")` is true of `"al"`, `lt("name", "m")` is false (not an error) of `"zed"`, and `lt` of an int attribute against text raises TypeError |
| `Expressions.Contains` | src/nofeardb/expr.py:26-27 | membership in a list is "some item equals it"; containment in a string is a substring test for a string and TypeError for anything else; containment in None, a bool or an int raises TypeError; it can raise nothing else |
| `Expressions.CompareEqIsEqual` | src/nofeardb/expr.py:56-60 | the `==` and `!=` operators agree with structural Python equality and its negation on all values |
| `Expressions.LeIsLtOrEqual` | src/nofeardb/expr.py:62-66 | `a <= b` raises exactly when `a < b` does, and otherwise is `a < b or a == b` |
| `Expressions.GtIsConverseOfLt` | src/nofeardb/expr.py:62-69 | `a > b` is `b < a` on all values, raising included |
| `Expressions.Eq` | src/nofeardb/expr.py:56-57 | `eq(attr, v)` is true exactly when the document's attribute equals `v`; it raises AttributeError when the attribute is missing |
| `Expressions.Neq` | src/nofeardb/expr.py:59-60 | `neq(attr, v)` is true exactly when the attribute does not equal `v` |
| `Expressions.Lt` | src/nofeardb/expr.py:62-63 | on every document with the attribute `lt` is the comparison `attribute < value`; on numbers it is `<`; with None on either side it raises TypeError |
| `Expressions.Lte` | src/nofeardb/expr.py:65-66 | on numbers `lte` is `<=`; on all documents it raises exactly when `lt` does and is otherwise `lt` or `eq` |
| `Expressions.Gt` | src/nofeardb/expr.py:68-69 | `gt(attr, v)` is `v < attribute`; on numbers it is `>` |
| `Expressions.GeIsConverseOfLe` | src/nofeardb/expr.py:65-72 | `a >= b` is `b <= a` on all values, raising included |
| `Expressions.Gte` | src/nofeardb/expr.py:71-72 | `gte(attr, v)` is `v <= attribute`; on numbers it is `>=`; with None on either side it raises TypeError |
| `Expressions.IsIn` | src/nofeardb/expr.py:74-75 | `is_in(attr, items)` swaps the operands: true exactly when the attribute's value equals some item of the list; for a string it is a substring test, raising TypeError when the attribute is not a string; None or a number as the collection raises TypeError |
| `Expressions.And` | src/nofeardb/expr.py:83-84 | `and_` is true exactly when both sides are; it gives the left side's result when that is false or an error, and the right side's result (error included) when the left side is true |
| `Expressions.Or` | src/nofeardb/expr.py:86-87 | `or_` is false exactly when both sides are; it gives the left side's result when that is true or an error, and the right side's result (error included) when the left side is false |
| `Expressions.AndShortCircuitsFailure` | src/nofeardb/expr.py:37-41 | `and_(false leaf, leaf on a missing attribute)` is false although its right side alone raises |
| `Expressions.IntegerComparisonLaws` | src/nofeardb/expr.py:56-66 | on an integer attribute `neq` is the negation of `eq`, and `lte` is `lt` or `eq` |
| `Datatypes.Digits` | src/nofeardb/datatypes.py:44 | the decimal numeral of a natural number is non-empty, all digits, has no leading zero and denotes the number |
| `Datatypes.DecimalString` | src/nofeardb/datatypes.py:44 | `str(n)` starts with `-` exactly for negative n, followed by the numeral of its magnitude, and holds neither `.` nor `x` |
| `Datatypes.ParseDecimal` | src/nofeardb/datatypes.py:37 | `int(text)` succeeds exactly on an optionally signed non-empty digit string, whose value it returns with the sign applied, and otherwise raises ValueError |
| `Datatypes.ParseHex` | src/nofeardb/datatypes.py:34-35 | `int(text, base=16)` succeeds exactly on an optional sign, an optional `0x`/`0X` and a non-empty string of hexadecimal digits, whose base-16 value it returns with the sign applied; on text containing `x` success implies the prefix was present; otherwise it raises ValueError |
| `Datatypes.IntegerCast` | src/nofeardb/datatypes.py:29-37 | an int (or bool) casts to its own value, text containing `x` is read as hexadecimal, other text as decimal, and None or a list raises TypeError |
| `Datatypes.IntegerSerialize` | src/nofeardb/datatypes.py:39-44 | an int or bool serializes to its decimal text; any other value raises AttributeError |
| `Datatypes.IntegerDeserialize` | src/nofeardb/datatypes.py:46-48 | stored text containing `x` is parsed in base 16 and other text in base 10, and parsing can only raise ValueError |
| `Datatypes.IntegerRoundTrip` | src/nofeardb/datatypes.py:29-48 | deserializing the serialized text of any int gives the int back |
| `Datatypes.IntegerSerializeInjective` | src/nofeardb/datatypes.py:39-44 | two different ints never serialize to the same text |
| `Datatypes.IntegerExamples` | tests/test_datatypes.py:10-27 | `"2"` is 2, `"-2"` is -2, `"0x12F"` is 303, `"hello"` raises ValueError, -2 serializes to `"-2"`, and serializing the text `"2"` raises AttributeError |
| `Datatypes.IntegerParseExamples` | src/nofeardb/datatypes.py:34-37 | `"+5"` is 5, `"007"` is 7, `"-0x1f"` is -31, while `"0X1F"` (no lower-case `x`) is read as decimal and raises ValueError, as does `"0x"` |
| `Datatypes.StringCast` | src/nofeardb/datatypes.py:76-78 | a string casts to itself, and an int casts to `str(n)`, which the Integer converter reads back as the same int |
| `Datatypes.StringSerialize` | src/nofeardb/datatypes.py:80-85 | a string serializes to itself; any other value raises AttributeError |
| `Datatypes.StringDeserialize` | src/nofeardb/datatypes.py:87-89 | deserialized text serializes back to the same text |
| `Datatypes.StringRoundTrip` | src/nofeardb/datatypes.py:73-89 | deserializing the serialized form of any string gives the string back |

## Left out

- Datatypes.IntegerCast: text containing `.` goes through `float` in the source; the model requires such text to be absent, because floating point is not modelled.
- Datatypes.IntegerDeserialize: the same `.` branch is excluded, for the same reason.
- Datatypes.IntegerSerialize: a float argument (serialized as `str(int(value))`) is not modelled; values have no float kind.
- Datatypes.StringCast: `str()` of a list (Python's `repr` of its items) is excluded by its requires.
- Datatypes.ParseDecimal: Python's `int()` also accepts surrounding whitespace, `_` between digits and non-ASCII digits; the model accepts only the plain signed ASCII form and raises ValueError on the rest.
- Datatypes.ParseHex: the same extra syntax of `int(text, 16)` (whitespace, `_` between digits) is not accepted.
- Datatypes.IntegerSerialize: CPython 3.11 and later (and the 2022 security releases of 3.7-3.10) refuse by default to convert an int of more than 4300 decimal digits to text, or such text to an int (`sys.int_max_str_digits`), raising ValueError; the model serializes and parses ints of every size, so `IntegerRoundTrip` holds beyond that limit only in the model. `ParseDecimal` does not model the limit either.
- Orm.LowerAscii: `str.lower` on non-ASCII letters is not modelled; only `A`-`Z` are lowered.
- Expressions.Eval: a missing attribute raises AttributeError in the model; in the source a declared Field that was never written raises KeyError from its descriptor, and the model does not tell these apart.
- The `Float`, `DateTime` and `UUID` converters: floating point and the standard library's date parsing and formatting are outside the model.
- `is_` and `is_not`: they test Python object identity, which values do not have.
- Attribute values are Python built-in values (None, bool, int, str, list); a Relationship storing another document object is modelled by whatever value stands for that document, and object identity or aliasing between documents is not modelled.
- Filters.QueryFilter: a filter and its lists are values, so aliasing is not modelled. In the source, `QueryFilter(docs)` keeps the caller's list when it is non-empty (an empty one is replaced by a fresh `[]`), `all()` hands out the internal list, and the selection is the same list object as the original when none was given. Appending to the list `all()` returns therefore changes later `first`/`last` results, and with no selection given also the original; the model does not capture this.
- `QueryFilter` is generic in the kind of document it holds; the corrected `where` works on documents seen as attribute maps.
- `where` is modelled for conditions that are expression objects or built-in values; other objects with their own `__bool__` are not.
- The instance dictionary of a Python document also holds `__status__` and `__changed_fields__`; a Field named like those would collide with them, which the model (keeping them apart) does not reproduce.
- The storage engine (`create`, `update`, `delete`, `read`) has empty bodies at this snapshot, so there is nothing to model; the older copy under `src/nofear-db` duplicates it. Dependency resolution, JSON building and merging, document locks with heartbeats and relationship back-population appear only in tests, not in code, and are not part of this model.
- `docs/source/conf.py` is documentation configuration.

## Findings

| source | as written | input that shows it | evidently intended | confidence | as-written member | corrected member |
|---|---|---|---|---|---|---|
| src/nofeardb/filter.py:20 | `where` tests `if condition:` on the condition object itself, once per document, and never evaluates it on the document; an expression object is always truthy | `QueryFilter(docs).where(eq("a", 1))` with documents whose `a` is 1 and 2 keeps both | keep the documents for which `condition.evaluate(doc)` is true | high; not executed | `Filters.WhereIgnoresExpression` | `Filters.WhereMatching` |

=== FILE: datatypes.dfy ===
/**
 * The Integer and String converters of the ORM: `cast` turns an arbitrary
 * value into the column type, `serialize` turns a column value into the text
 * stored in a document file, and `deserialize` parses that text back.
 */
module Datatypes {
  import opened Runtime

  predicate IsDecimalDigit(c: char) {
    '0' <= c <= '9'
  }

  predicate IsHexDigit(c: char) {
    IsDecimalDigit(c) || 'a' <= c <= 'f' || 'A' <= c <= 'F'
  }

  predicate AllDecimal(s: string) {
    forall k :: 0 <= k < |s| ==> IsDecimalDigit(s[k])
  }

  predicate AllHex(s: string) {
    forall k :: 0 <= k < |s| ==> IsHexDigit(s[k])
  }

  /** The value of one digit; the letters count from ten up, in either case. */
  function DigitValue(c: char): (d: nat)
    requires IsHexDigit(c)
    ensures d < 16
    ensures IsDecimalDigit(c) <==> d < 10
  {
    if IsDecimalDigit(c) then c as int - '0' as int
    else if 'a' <= c <= 'f' then c as int - 'a' as int + 10
    else c as int - 'A' as int + 10
  }

  /** The numeral for a single decimal digit value. */
  function DigitChar(d: nat): (c: char)
    requires d < 10
    ensures IsDecimalDigit(c) && DigitValue(c) == d
  {
    ('0' as int + d) as char
  }

  /** The number a string of digits denotes in the given base, most significant digit first. */
  function DigitsValue(ds: string, base: nat): nat
    requires AllHex(ds)
    decreases |ds|
  {
    if ds == [] then 0
    else DigitsValue(ds[..|ds| - 1], base) * base + DigitValue(ds[|ds| - 1])
  }

  /** The decimal numeral of a natural number, without leading zeros. */
  function Digits(n: nat): (s: string)
    ensures |s| > 0 && AllDecimal(s) && AllHex(s)
    ensures DigitsValue(s, 10) == n
    ensures s[0] == '0' ==> n == 0 && |s| == 1
    decreases n
  {
    if n < 10 then [DigitChar(n)]
    else
      var prefix := Digits(n / 10);
      var s := prefix + [DigitChar(n % 10)];
      assert s[..|s| - 1] == prefix;
      s
  }

  /** `str(n)` for an int: its decimal numeral, with a leading `-` when negative. */
  function DecimalString(n: int): (s: string)
    ensures |s| > 0
    ensures n < 0 <==> s[0] == '-'
    ensures n < 0 ==> s[1..] == Digits(-n)
    ensures n >= 0 ==> s == Digits(n)
    ensures '.' !in s && 'x' !in s
  {
    if n < 0 then "-" + Digits(-n) else Digits(n)
  }

  /** Splits an optional leading `+` or `-` off a numeral. */
  function SplitSign(s: string): (r: (bool, string))
    ensures r.1 == s || (|s| > 0 && r.1 == s[1..] && (s[0] == '+' || s[0] == '-'))
    ensures r.0 <==> |s| > 0 && s[0] == '-'
  {
    if |s| > 0 && (s[0] == '-' || s[0] == '+') then (s[0] == '-', s[1..]) else (false, s)
  }

  /** `int(s)`: an optionally signed, non-empty string of decimal digits, read in base 10. */
  function ParseDecimal(s: string): (r: Result<int>)
    ensures r.Err? ==> r.error == ValueError
    ensures r.Ok? <==> SplitSign(s).1 != [] && AllDecimal(SplitSign(s).1)
    ensures r.Ok? ==> r.value == Signed(SplitSign(s).0, DigitsValue(SplitSign(s).1, 10))
  {
    var (negative, body) := SplitSign(s);
    if body != [] && AllDecimal(body) then
      var magnitude: int := DigitsValue(body, 10);
      Ok(if negative then -magnitude else magnitude)
    else Err(ValueError)
  }

  /** A magnitude with its sign applied. */
  function Signed(negative: bool, magnitude: nat): int {
    if negative then -(magnitude as int) else magnitude
  }

  /** True when the text starts with `0x` or `0X`. */
  predicate HasHexPrefix(body: string) {
    |body| >= 2 && body[0] == '0' && (body[1] == 'x' || body[1] == 'X')
  }

  /** The digits of a base-16 numeral: what follows an optional `0x` / `0X` prefix. */
  function HexDigits(body: string): (ds: string)
    ensures HasHexPrefix(body) ==> ds == body[2..]
    ensures !HasHexPrefix(body) ==> ds == body
  {
    if HasHexPrefix(body) then body[2..] else body
  }

  /**
   * `int(s, base=16)`: an optional sign, an optional `0x` / `0X` prefix and a
   * non-empty string of hexadecimal digits, read in base 16.
   */
  function ParseHex(s: string): (r: Result<int>)
    ensures r.Err? ==> r.error == ValueError
    ensures r.Ok? <==> HexDigits(SplitSign(s).1) != [] && AllHex(HexDigits(SplitSign(s).1))
    ensures r.Ok? ==> r.value == Signed(SplitSign(s).0, DigitsValue(HexDigits(SplitSign(s).1), 16))
    ensures r.Ok? && 'x' in s ==> HasHexPrefix(SplitSign(s).1) && 'x' !in HexDigits(SplitSign(s).1)
  {
    var (negative, body) := SplitSign(s);
    var ds := HexDigits(body);
    if ds != [] && AllHex(ds) then
      var magnitude: int := DigitsValue(ds, 16);
      Ok(if negative then -magnitude else magnitude)
    else Err(ValueError)
  }

  /**
   * `Integer.cast`: hexadecimal when the text contains an `x`, decimal text
   * otherwise; ints and bools convert to their integer value and anything else
   * is a TypeError. Text containing a `.` goes through `float` and is not modelled.
   */
  function IntegerCast(v: Value): (r: Result<int>)
    requires v.PyStr? ==> '.' !in v.s
    ensures IsNumber(v) ==> r == Ok(Num(v))
    ensures v.PyInt? ==> r == Ok(v.i)
    ensures (v.PyNone? || v.PyList?) ==> r == Err(TypeError)
    ensures v.PyStr? && 'x' in v.s ==> r == ParseHex(v.s)
    ensures v.PyStr? && 'x' !in v.s ==> r == ParseDecimal(v.s)
  {
    match v
    case PyStr(s) => if 'x' in s then ParseHex(s) else ParseDecimal(s)
    case PyInt(i) => Ok(i)
    case PyBool(b) => Ok(if b then 1 else 0)
    case _ => Err(TypeError)
  }

  /** `Integer.serialize`: the decimal text of an int (bools included); AttributeError otherwise. */
  function IntegerSerialize(v: Value): (r: Result<string>)
    ensures r.Ok? <==> IsNumber(v)
    ensures r.Err? ==> r.error == AttributeError
    ensures r.Ok? ==> r.value == DecimalString(Num(v))
  {
    if IsNumber(v) then Ok(DecimalString(Num(v))) else Err(AttributeError)
  }

  /** `Integer.deserialize`: `Integer.cast` applied to the stored text. */
  function IntegerDeserialize(s: string): (r: Result<int>)
    requires '.' !in s
    ensures r.Err? ==> r.error == ValueError
    ensures 'x' in s ==> r == ParseHex(s)
    ensures 'x' !in s ==> r == ParseDecimal(s)
  {
    IntegerCast(PyStr(s))
  }

  /** Deserializing the serialized form of any int gives the int back. */
  lemma IntegerRoundTrip(n: int)
    ensures IntegerSerialize(PyInt(n)).Ok?
    ensures IntegerDeserialize(IntegerSerialize(PyInt(n)).value) == Ok(n)
  {
  }

  /** Two ints serialize to the same text only if they are equal. */
  lemma IntegerSerializeInjective(m: int, n: int)
    requires IntegerSerialize(PyInt(m)) == IntegerSerialize(PyInt(n))
    ensures m == n
  {
  }

  /** Worked values: `"2"`, `"-2"`, `"0x12F"` and `"hello"`. */
  lemma IntegerExamples()
    ensures IntegerDeserialize("2") == Ok(2)
    ensures IntegerDeserialize("-2") == Ok(-2)
    ensures IntegerDeserialize("0x12F") == Ok(303)
    ensures IntegerDeserialize("hello") == Err(ValueError)
    ensures IntegerSerialize(PyInt(-2)) == Ok("-2")
    ensures IntegerSerialize(PyStr("2")) == Err(AttributeError)
  {
    assert "0x12F"[2..] == "12F";
    assert "12F"[..2] == "12" && "12"[..1] == "1" && "1"[..0] == "";
    assert !IsDecimalDigit("hello"[0]);
    assert Digits(2) == "2";
    assert DecimalString(-2) == "-2";
  }

  /** Signed, zero-padded and prefixed text: `"+5"`, `"007"`, `"-0x1f"` and `"0X1F"`. */
  lemma IntegerParseExamples()
    ensures IntegerDeserialize("+5") == Ok(5)
    ensures IntegerDeserialize("007") == Ok(7)
    ensures IntegerDeserialize("-0x1f") == Ok(-31)
    ensures IntegerDeserialize("0X1F") == ParseDecimal("0X1F") == Err(ValueError)
    ensures IntegerDeserialize("0x") == Err(ValueError)
  {
    assert "+5"[1..] == "5" && "5"[..0] == "";
    assert "007"[..2] == "00" && "00"[..1] == "0" && "0"[..0] == "";
    assert "-0x1f"[1..] == "0x1f" && "0x1f"[2..] == "1f" && "1f"[..1] == "1" && "1"[..0] == "";
    assert !IsDecimalDigit("0X1F"[1]);
    assert "0x"[2..] == "";
  }

  /**
   * `String.cast`: `str(v)`. The text of a list (Python's `repr` of its
   * elements) is not modelled.
   */
  function StringCast(v: Value): (r: string)
    requires !v.PyList?
    ensures v.PyStr? ==> r == v.s
    ensures v.PyInt? ==> r == DecimalString(v.i)
    ensures v.PyInt? ==> '.' !in r && IntegerDeserialize(r) == Ok(v.i)
  {
    match v
    case PyNone => "None"
    case PyBool(b) => if b then "True" else "False"
    case PyInt(i) => IntegerRoundTrip(i); DecimalString(i)
    case PyStr(s) => s
  }

  /** `String.serialize`: the string itself; AttributeError for anything else. */
  function StringSerialize(v: Value): (r: Result<string>)
    ensures r.Ok? <==> v.PyStr?
    ensures r.Ok? ==> r.value == v.s
    ensures r.Err? ==> r.error == AttributeError
  {
    if v.PyStr? then Ok(v.s) else Err(AttributeError)
  }

  /** `String.deserialize`: `String.cast` of the stored text. */
  function StringDeserialize(s: string): (r: string)
    ensures StringSerialize(PyStr(r)) == Ok(s)
  {
    StringCast(PyStr(s))
  }

  /** Deserializing the serialized form of any string gives the string back. */
  lemma StringRoundTrip(s: string)
    ensures StringSerialize(PyStr(s)).Ok?
    ensures StringDeserialize(StringSerialize(PyStr(s)).value) == s
  {
  }
}

=== FILE: expressions.dfy ===
/**
 * Query predicate expressions: a comparison of one named attribute of a
 * document against a constant, combined with short-circuit `and` / `or`.
 * Comparisons follow Python's rules for the built-in types: a bool is the
 * integer 0 or 1, strings and lists compare lexicographically, `==` between
 * unrelated types is false, and an ordering between unrelated types raises
 * TypeError.
 */
module Expressions {
  import opened Runtime

  /** The operator a leaf applies (`operator.eq` ... `operator.contains`). */
  datatype Op = OpEq | OpNe | OpLt | OpLe | OpGt | OpGe | OpContains

  /** `Expr`, `AndExpr` and `OrExpr`. */
  datatype Expr =
    | Leaf(attr: string, value: Value, op: Op)
    | AndExpr(left: Expr, right: Expr)
    | OrExpr(left: Expr, right: Expr)

  /** Python `==` on values. */
  predicate Equal(a: Value, b: Value)
    decreases a
  {
    match a
    case PyNone => b.PyNone?
    case PyBool(_) => IsNumber(b) && Num(a) == Num(b)
    case PyInt(_) => IsNumber(b) && Num(a) == Num(b)
    case PyStr(s) => b.PyStr? && b.s == s
    case PyList(xs) =>
      b.PyList? && |xs| == |b.items| &&
      forall k :: 0 <= k < |xs| ==> Equal(xs[k], b.items[k])
  }

  function Min(x: nat, y: nat): nat {
    if x <= y then x else y
  }

  /** The first index at which two lists hold unequal items, or the shorter length. */
  function FirstDifference(xs: seq<Value>, ys: seq<Value>): (k: nat)
    ensures k <= Min(|xs|, |ys|)
    ensures forall j :: 0 <= j < k ==> Equal(xs[j], ys[j])
    ensures k < Min(|xs|, |ys|) ==> !Equal(xs[k], ys[k])
    decreases |xs|
  {
    if xs == [] || ys == [] || !Equal(xs[0], ys[0]) then 0
    else 1 + FirstDifference(xs[1..], ys[1..])
  }

  /** The first index at which two strings differ, or the shorter length. */
  function FirstCharDifference(s: string, t: string): (k: nat)
    ensures k <= Min(|s|, |t|)
    ensures forall j :: 0 <= j < k ==> s[j] == t[j]
    ensures k < Min(|s|, |t|) ==> s[k] != t[k]
    decreases |s|
  {
    if s == [] || t == [] || s[0] != t[0] then 0
    else 1 + FirstCharDifference(s[1..], t[1..])
  }

  /** A comparison operator applied to two integers. */
  function IntOp(op: Op, x: int, y: int): bool
    requires op != OpContains
  {
    match op
    case OpEq => x == y
    case OpNe => x != y
    case OpLt => x < y
    case OpLe => x <= y
    case OpGt => x > y
    case OpGe => x >= y
  }

  /** A comparison operator applied to two strings, code point by code point. */
  function StrOp(op: Op, s: string, t: string): bool
    requires op != OpContains
  {
    var k := FirstCharDifference(s, t);
    if k == Min(|s|, |t|) then IntOp(op, |s|, |t|)
    else IntOp(op, s[k] as int, t[k] as int)
  }

  /** `op(a, b)` for a comparison operator. */
  function Compare(op: Op, a: Value, b: Value): (r: Result<bool>)
    requires op != OpContains
    ensures r.Err? ==> r.error == TypeError
    ensures (op == OpEq || op == OpNe) ==> r.Ok?
    ensures (a.PyNone? || b.PyNone?) && op !in {OpEq, OpNe} ==> r == Err(TypeError)
    ensures (op !in {OpEq, OpNe} && !(IsNumber(a) && IsNumber(b)) && !(a.PyStr? && b.PyStr?) &&
             !(a.PyList? && b.PyList?)) ==> r == Err(TypeError)
    ensures IsNumber(a) && IsNumber(b) ==> r.Ok?
    ensures a.PyStr? && b.PyStr? ==> r.Ok?
    decreases a
  {
    if IsNumber(a) && IsNumber(b) then Ok(IntOp(op, Num(a), Num(b)))
    else if a.PyStr? && b.PyStr? then Ok(StrOp(op, a.s, b.s))
    else if a.PyList? && b.PyList? then
      var k := FirstDifference(a.items, b.items);
      if k == Min(|a.items|, |b.items|) then Ok(IntOp(op, |a.items|, |b.items|))
      else if op == OpEq then Ok(false)
      else if op == OpNe then Ok(true)
      else Compare(op, a.items[k], b.items[k])
    else if op == OpEq then Ok(a.PyNone? && b.PyNone?)
    else if op == OpNe then Ok(!(a.PyNone? && b.PyNone?))
    else Err(TypeError)
  }

  /** `t in s` for strings: `t` occurs in `s` at some position. */
  predicate IsSubstring(t: string, s: string)
    decreases |s|
  {
    t <= s || (s != [] && IsSubstring(t, s[1..]))
  }

  /** `operator.contains(collection, x)`, that is `x in collection`. */
  function Contains(collection: Value, x: Value): (r: Result<bool>)
    ensures collection.PyList? ==> r == Ok(exists k :: 0 <= k < |collection.items| && Equal(collection.items[k], x))
    ensures collection.PyStr? && x.PyStr? ==> r == Ok(IsSubstring(x.s, collection.s))
    ensures collection.PyStr? && !x.PyStr? ==> r == Err(TypeError)
    ensures (collection.PyNone? || IsNumber(collection)) ==> r == Err(TypeError)
    ensures r.Err? ==> r.error == TypeError
  {
    match collection
    case PyList(items) => Ok(exists k :: 0 <= k < |items| && Equal(items[k], x))
    case PyStr(s) =>
      if x.PyStr? then Ok(IsSubstring(x.s, s))
      else Err(TypeError)
    case _ => Err(TypeError)
  }

  /** `evaluate(instance)`: a missing attribute raises; `and`/`or` skip the right side when the left decides. */
  function Eval(e: Expr, doc: Attrs): (r: Result<bool>)
    ensures e.Leaf? ==> (r == Err(AttributeError) <==> e.attr !in doc)
    ensures e.Leaf? && e.op != OpContains && e.attr in doc ==> r == Compare(e.op, doc[e.attr], e.value)
    ensures e.Leaf? && e.op == OpContains && e.attr in doc ==> r == Contains(e.value, doc[e.attr])
  {
    match e
    case Leaf(attr, value, op) =>
      if attr !in doc then Err(AttributeError)
      else if op == OpContains then Contains(value, doc[attr])
      else Compare(op, doc[attr], value)
    case AndExpr(left, right) =>
      var first := Eval(left, doc);
      if first.Err? || !first.value then first else Eval(right, doc)
    case OrExpr(left, right) =>
      var first := Eval(left, doc);
      if first.Err? || first.value then first else Eval(right, doc)
  }

  // ---------------------------------------------------------------------------
  // Comparison laws

  /** The `==` of the comparison operator agrees with structural Python equality. */
  lemma CompareEqIsEqual(a: Value, b: Value)
    ensures Compare(OpEq, a, b) == Ok(Equal(a, b))
    ensures Compare(OpNe, a, b) == Ok(!Equal(a, b))
  {
  }

  /** `a <= b` is `a < b or a == b`, and the two raise on the same operands. */
  lemma {:induction false} LeIsLtOrEqual(a: Value, b: Value)
    ensures Compare(OpLe, a, b).Ok? <==> Compare(OpLt, a, b).Ok?
    ensures Compare(OpLe, a, b).Ok? ==>
              Compare(OpLe, a, b).value == (Compare(OpLt, a, b).value || Equal(a, b))
    decreases a
  {
    CompareEqIsEqual(a, b);
    if a.PyStr? && b.PyStr? {
      var k := FirstCharDifference(a.s, b.s);
      if k == Min(|a.s|, |b.s|) && |a.s| == |b.s| {
        assert a.s == b.s;
      }
    } else if a.PyList? && b.PyList? {
      var k := FirstDifference(a.items, b.items);
      if k < Min(|a.items|, |b.items|) {
        LeIsLtOrEqual(a.items[k], b.items[k]);
        assert !Equal(a, b) by { assert !Equal(a.items[k], b.items[k]); }
      }
    }
  }

  /**
   * `s < t` on strings: `s` is a proper prefix of `t`, or at the first position
   * where they differ the code point of `s` is the smaller.
   */
  lemma StrLtIsLexicographic(s: string, t: string)
    ensures Compare(OpLt, PyStr(s), PyStr(t)) == Ok(true) <==>
              s < t || exists k :: 0 <= k < |s| && k < |t| && s[..k] == t[..k] && s[k] < t[k]
  {
    var d := FirstCharDifference(s, t);
    if d == Min(|s|, |t|) {
      if |s| < |t| {
        assert s == t[..|s|];
      }
      forall k | 0 <= k < |s| && k < |t| && s[..k] == t[..k] ensures s[k] == t[k] {
      }
    } else {
      assert s[..d] == t[..d];
      forall k | 0 <= k < |s| && k < |t| && s[..k] == t[..k] && s[k] < t[k] ensures k == d {
      }
    }
  }

  /**
   * `xs < ys` on lists: every item of `xs` equals the item of `ys` at its
   * position and `xs` is shorter, or at the first position whose items are not
   * equal the item of `xs` is below the item of `ys`.
   */
  lemma ListLtIsLexicographic(xs: seq<Value>, ys: seq<Value>)
    ensures Compare(OpLt, PyList(xs), PyList(ys)) == Ok(true) <==>
              (|xs| < |ys| && forall j :: 0 <= j < |xs| ==> Equal(xs[j], ys[j])) ||
              exists k :: 0 <= k < |xs| && k < |ys| && (forall j :: 0 <= j < k ==> Equal(xs[j], ys[j])) &&
                          !Equal(xs[k], ys[k]) && Compare(OpLt, xs[k], ys[k]) == Ok(true)
    ensures Compare(OpLt, PyList(xs), PyList(ys)).Err? <==>
              exists k :: 0 <= k < |xs| && k < |ys| && (forall j :: 0 <= j < k ==> Equal(xs[j], ys[j])) &&
                          !Equal(xs[k], ys[k]) && Compare(OpLt, xs[k], ys[k]).Err?
  {
    var d := FirstDifference(xs, ys);
    if d < Min(|xs|, |ys|) {
      forall k | 0 <= k < |xs| && k < |ys| && (forall j :: 0 <= j < k ==> Equal(xs[j], ys[j])) &&
                 !Equal(xs[k], ys[k])
        ensures k == d
      {
      }
    }
  }

  /** Python equality is symmetric. */
  lemma {:induction false} EqualSymmetric(a: Value, b: Value)
    ensures Equal(a, b) == Equal(b, a)
    decreases a
  {
    if a.PyList? && b.PyList? && |a.items| == |b.items| {
      forall k | 0 <= k < |a.items| ensures Equal(a.items[k], b.items[k]) == Equal(b.items[k], a.items[k]) {
        EqualSymmetric(a.items[k], b.items[k]);
      }
    }
  }

  lemma {:induction false} FirstDifferenceSymmetric(xs: seq<Value>, ys: seq<Value>)
    ensures FirstDifference(xs, ys) == FirstDifference(ys, xs)
    decreases |xs|
  {
    if xs != [] && ys != [] {
      EqualSymmetric(xs[0], ys[0]);
      FirstDifferenceSymmetric(xs[1..], ys[1..]);
    }
  }

  /** `a > b` is `b < a`, including when it raises. */
  lemma {:induction false} GtIsConverseOfLt(a: Value, b: Value)
    ensures Compare(OpGt, a, b) == Compare(OpLt, b, a)
    decreases a
  {
    if a.PyStr? && b.PyStr? {
      var k := FirstCharDifference(a.s, b.s);
      assert FirstCharDifference(b.s, a.s) == k by { CharDifferenceSymmetric(a.s, b.s); }
    } else if a.PyList? && b.PyList? {
      FirstDifferenceSymmetric(a.items, b.items);
      var k := FirstDifference(a.items, b.items);
      if k < Min(|a.items|, |b.items|) {
        GtIsConverseOfLt(a.items[k], b.items[k]);
      }
    }
  }

  /** `a >= b` is `b <= a`, including when it raises. */
  lemma {:induction false} GeIsConverseOfLe(a: Value, b: Value)
    ensures Compare(OpGe, a, b) == Compare(OpLe, b, a)
    decreases a
  {
    if a.PyStr? && b.PyStr? {
      var k := FirstCharDifference(a.s, b.s);
      assert FirstCharDifference(b.s, a.s) == k by { CharDifferenceSymmetric(a.s, b.s); }
    } else if a.PyList? && b.PyList? {
      FirstDifferenceSymmetric(a.items, b.items);
      var k := FirstDifference(a.items, b.items);
      if k < Min(|a.items|, |b.items|) {
        GeIsConverseOfLe(a.items[k], b.items[k]);
      }
    }
  }

  lemma CharDifferenceSymmetric(s: string, t: string)
    ensures FirstCharDifference(s, t) == FirstCharDifference(t, s)
  {
  }

  // ---------------------------------------------------------------------------
  // The expression builders `eq` ... `or_`

  /** `eq`: true exactly when the attribute equals the value. */
  function Eq(attr: string, value: Value): (e: Expr)
    ensures forall doc: Attrs :: attr !in doc ==> Eval(e, doc) == Err(AttributeError)
    ensures forall doc: Attrs :: attr in doc ==> Eval(e, doc) == Ok(Equal(doc[attr], value))
  {
    Leaf(attr, value, OpEq)
  }

  /** `neq`: true exactly when the attribute does not equal the value. */
  function Neq(attr: string, value: Value): (e: Expr)
    ensures forall doc: Attrs :: attr !in doc ==> Eval(e, doc) == Err(AttributeError)
    ensures forall doc: Attrs :: attr in doc ==> Eval(e, doc) == Ok(!Equal(doc[attr], value))
  {
    Leaf(attr, value, OpNe)
  }

  /** `lt`: on numbers, the attribute is below the value; an unordered pair raises TypeError. */
  function Lt(attr: string, value: Value): (e: Expr)
    ensures forall doc: Attrs :: attr !in doc ==> Eval(e, doc) == Err(AttributeError)
    ensures forall doc: Attrs :: attr in doc ==> Eval(e, doc) == Compare(OpLt, doc[attr], value)
    ensures forall doc: Attrs :: attr in doc && IsNumber(doc[attr]) && IsNumber(value) ==>
              Eval(e, doc) == Ok(Num(doc[attr]) < Num(value))
    ensures forall doc: Attrs :: attr in doc && (doc[attr].PyNone? || value.PyNone?) ==>
              Eval(e, doc) == Err(TypeError)
  {
    Leaf(attr, value, OpLt)
  }

  /** `lte`: on numbers, at most the value; in general `lt` or `eq`. */
  function Lte(attr: string, value: Value): (e: Expr)
    ensures forall doc: Attrs :: attr !in doc ==> Eval(e, doc) == Err(AttributeError)
    ensures forall doc: Attrs :: attr in doc && IsNumber(doc[attr]) && IsNumber(value) ==>
              Eval(e, doc) == Ok(Num(doc[attr]) <= Num(value))
    ensures forall doc: Attrs :: Eval(e, doc).Ok? <==> Eval(Lt(attr, value), doc).Ok?
    ensures forall doc: Attrs :: Eval(e, doc).Ok? ==>
              Eval(e, doc).value == (Eval(Lt(attr, value), doc).value || Eval(Eq(attr, value), doc).value)
  {
    forall a | true ensures Compare(OpLe, a, value).Ok? <==> Compare(OpLt, a, value).Ok?
      ensures Compare(OpLe, a, value).Ok? ==>
                Compare(OpLe, a, value).value == (Compare(OpLt, a, value).value || Equal(a, value))
    {
      LeIsLtOrEqual(a, value);
    }
    Leaf(attr, value, OpLe)
  }

  /** `gt`: the value is below the attribute (`lt` with the operands swapped). */
  function Gt(attr: string, value: Value): (e: Expr)
    ensures forall doc: Attrs :: attr !in doc ==> Eval(e, doc) == Err(AttributeError)
    ensures forall doc: Attrs :: attr in doc ==> Eval(e, doc) == Compare(OpLt, value, doc[attr])
    ensures forall doc: Attrs :: attr in doc && IsNumber(doc[attr]) && IsNumber(value) ==>
              Eval(e, doc) == Ok(Num(doc[attr]) > Num(value))
  {
    forall a | true ensures Compare(OpGt, a, value) == Compare(OpLt, value, a) {
      GtIsConverseOfLt(a, value);
    }
    Leaf(attr, value, OpGt)
  }

  /** `gte`: the attribute is at least the value (`lte` with the operands swapped). */
  function Gte(attr: string, value: Value): (e: Expr)
    ensures forall doc: Attrs :: attr !in doc ==> Eval(e, doc) == Err(AttributeError)
    ensures forall doc: Attrs :: attr in doc ==> Eval(e, doc) == Compare(OpLe, value, doc[attr])
    ensures forall doc: Attrs :: attr in doc && IsNumber(doc[attr]) && IsNumber(value) ==>
              Eval(e, doc) == Ok(Num(doc[attr]) >= Num(value))
    ensures forall doc: Attrs :: attr in doc && (doc[attr].PyNone? || value.PyNone?) ==>
              Eval(e, doc) == Err(TypeError)
  {
    forall a | true ensures Compare(OpGe, a, value) == Compare(OpLe, value, a) {
      GeIsConverseOfLe(a, value);
    }
    Leaf(attr, value, OpGe)
  }

  /** `is_in`: the attribute's value is an item of the given collection (arguments swapped). */
  function IsIn(attr: string, collection: Value): (e: Expr)
    ensures forall doc: Attrs :: attr !in doc ==> Eval(e, doc) == Err(AttributeError)
    ensures forall doc: Attrs :: attr in doc && collection.PyList? ==>
              Eval(e, doc) == Ok(exists k :: 0 <= k < |collection.items| && Equal(collection.items[k], doc[attr]))
    ensures forall doc: Attrs :: attr in doc && collection.PyStr? ==>
              Eval(e, doc) == (if doc[attr].PyStr? then Ok(IsSubstring(doc[attr].s, collection.s)) else Err(TypeError))
    ensures forall doc: Attrs :: attr in doc && (collection.PyNone? || IsNumber(collection)) ==>
              Eval(e, doc) == Err(TypeError)
  {
    Leaf(attr, collection, OpContains)
  }

  /** `and_`: true iff both are; false without looking at the right side once the left is false. */
  function And(left: Expr, right: Expr): (e: Expr)
    ensures forall doc: Attrs :: Eval(e, doc) == Ok(true) <==> Eval(left, doc) == Ok(true) && Eval(right, doc) == Ok(true)
    ensures forall doc: Attrs :: Eval(left, doc) == Ok(false) ==> Eval(e, doc) == Ok(false)
    ensures forall doc: Attrs :: Eval(left, doc) == Ok(true) ==> Eval(e, doc) == Eval(right, doc)
    ensures forall doc: Attrs :: Eval(left, doc).Err? ==> Eval(e, doc) == Eval(left, doc)
  {
    AndExpr(left, right)
  }

  /** `or_`: true iff either is; true without looking at the right side once the left is true. */
  function Or(left: Expr, right: Expr): (e: Expr)
    ensures forall doc: Attrs :: Eval(e, doc) == Ok(false) <==> Eval(left, doc) == Ok(false) && Eval(right, doc) == Ok(false)
    ensures forall doc: Attrs :: Eval(left, doc) == Ok(true) ==> Eval(e, doc) == Ok(true)
    ensures forall doc: Attrs :: Eval(left, doc) == Ok(false) ==> Eval(e, doc) == Eval(right, doc)
    ensures forall doc: Attrs :: Eval(left, doc).Err? ==> Eval(e, doc) == Eval(left, doc)
  {
    OrExpr(left, right)
  }

  /** A false left operand shields `and_` from a right operand that would raise. */
  lemma AndShortCircuitsFailure(doc: Attrs, attr: string, missing: string, v: Value)
    requires attr in doc && missing !in doc
    requires !Equal(doc[attr], v)
    ensures Eval(Eq(missing, v), doc) == Err(AttributeError)
    ensures Eval(And(Eq(attr, v), Eq(missing, v)), doc) == Ok(false)
  {
  }

  /** `lt` on text orders lexicographically; against an int it raises TypeError. */
  lemma StringOrderingExample()
    ensures Eval(Lt("name", PyStr("m")), map["name" := PyStr("alice")]) == Ok(true)
    ensures Eval(Lt("name", PyStr("alice")), map["name" := PyStr("al")]) == Ok(true)
    ensures Eval(Lt("name", PyStr("m")), map["name" := PyInt(1)]) == Err(TypeError)
    ensures Eval(Lt("name", PyStr("m")), map["name" := PyStr("zed")]) == Ok(false)
  {
    StrLtIsLexicographic("zed", "m");
    assert "zed"[0] > "m"[0];
    StrLtIsLexicographic("alice", "m");
    assert "alice"[..0] == "m"[..0];
    StrLtIsLexicographic("al", "alice");
    assert "al" == "alice"[..2];
  }

  /** On integer attributes `neq` is the negation of `eq` and `lte` is `lt` or `eq`. */
  lemma IntegerComparisonLaws(doc: Attrs, attr: string, v: int)
    requires attr in doc && doc[attr].PyInt?
    ensures Eval(Neq(attr, PyInt(v)), doc) == Ok(!Eval(Eq(attr, PyInt(v)), doc).value)
    ensures Eval(Lte(attr, PyInt(v)), doc) ==
              Ok(Eval(Lt(attr, PyInt(v)), doc).value || Eval(Eq(attr, PyInt(v)), doc).value)
  {
  }
}

=== FILE: filters.dfy ===
/**
 * The result of a query: the documents originally read and the current
 * selection, narrowed by `where` and inspected with `all`, `first` and `last`.
 * `where` returns a new filter rather than changing its receiver.
 */
module Filters {
  import opened Runtime
  import opened Expressions

  /** What `where` may be given: an expression object or a plain value. */
  datatype Condition = Predicate(expr: Expr) | Plain(value: Value)

  /**
   * `if condition:`. An expression object defines neither `__bool__` nor
   * `__len__`, so it is always true.
   */
  predicate ConditionHolds(c: Condition) {
    match c
    case Predicate(_) => true
    case Plain(v) => Truthy(v)
  }

  datatype QueryFilter<D> = QueryFilter(original: seq<D>, modified: seq<D>) {

    /**
     * `where`: visits the current documents in order, keeping each one when the
     * condition itself is true. The condition is never applied to a document.
     */
    method Where(condition: Condition) returns (r: QueryFilter<D>)
      ensures r.original == original
      ensures ConditionHolds(condition) ==> r.modified == modified
      ensures !ConditionHolds(condition) ==> r.modified == []
      ensures r == Narrowed(this, condition)
    {
      var result: seq<D> := [];
      for i := 0 to |modified|
        invariant result == if ConditionHolds(condition) then modified[..i] else []
      {
        if ConditionHolds(condition) {
          result := result + [modified[i]];
        }
      }
      r := QueryFilter(original, result);
    }

    /** `all`: the current selection itself. */
    function All(): (r: seq<D>)
      ensures r == modified
    {
      modified
    }

    /** `first`: the first selected document; NoResultFound when there is none. */
    function First(): (r: Result<D>)
      ensures r.Err? <==> modified == []
      ensures r.Err? ==> r.error == NoResultFound
      ensures r.Ok? ==> r.value == modified[0]
    {
      if |modified| > 0 then Ok(modified[0]) else Err(NoResultFound)
    }

    /** `last`: the last selected document; NoResultFound when there is none. */
    function Last(): (r: Result<D>)
      ensures r.Err? <==> modified == []
      ensures r.Err? ==> r.error == NoResultFound
      ensures r.Ok? ==> r.value == modified[|modified| - 1]
    {
      if |modified| > 0 then Ok(modified[|modified| - 1]) else Err(NoResultFound)
    }
  }

  /**
   * `QueryFilter(original, modified=None)`: a missing original is the empty
   * list, and a missing selection is the original. Only a missing selection is
   * replaced; an empty one is kept.
   */
  function NewQueryFilter<D>(original: Option<seq<D>>, modified: Option<seq<D>>): (f: QueryFilter<D>)
    ensures original.Nothing? ==> f.original == []
    ensures original.Some? ==> f.original == original.value
    ensures modified.Nothing? ==> f.modified == f.original
    ensures modified.Some? ==> f.modified == modified.value
  {
    var docs := if original.Some? then original.value else [];
    QueryFilter(docs, if modified.Some? then modified.value else docs)
  }

  /** The filter `where` returns, as a value (for reasoning about chains of calls). */
  function Narrowed<D>(f: QueryFilter<D>, condition: Condition): QueryFilter<D> {
    QueryFilter(f.original, if ConditionHolds(condition) then f.modified else [])
  }

  /**
   * A chain of `where` calls keeps the original documents; its selection is the
   * whole starting selection when every condition holds and empty otherwise, and
   * an emptied selection is never refilled from the original.
   */
  lemma {:induction false} WhereChain<D>(f: QueryFilter<D>, conditions: seq<Condition>)
    ensures Chain(f, conditions).original == f.original
    ensures (forall k :: 0 <= k < |conditions| ==> ConditionHolds(conditions[k])) ==>
              Chain(f, conditions).modified == f.modified
    ensures (exists k :: 0 <= k < |conditions| && !ConditionHolds(conditions[k])) ==>
              Chain(f, conditions).modified == []
    decreases |conditions|
  {
    if conditions != [] {
      var init := conditions[..|conditions| - 1];
      WhereChain(f, init);
      if exists k :: 0 <= k < |conditions| && !ConditionHolds(conditions[k]) {
        var k :| 0 <= k < |conditions| && !ConditionHolds(conditions[k]);
        if k < |init| {
          assert !ConditionHolds(init[k]);
        }
      }
    }
  }

  /** `f.where(c1).where(c2)...` with the given conditions in turn. */
  function Chain<D>(f: QueryFilter<D>, conditions: seq<Condition>): QueryFilter<D>
    decreases |conditions|
  {
    if conditions == [] then f
    else Narrowed(Chain(f, conditions[..|conditions| - 1]), conditions[|conditions| - 1])
  }

  /** After `where`, `first` and `last` see the whole selection or report no result. */
  lemma FirstAndLastAfterWhere<D>(f: QueryFilter<D>, condition: Condition)
    ensures ConditionHolds(condition) ==>
              Narrowed(f, condition).First() == f.First() && Narrowed(f, condition).Last() == f.Last()
    ensures !ConditionHolds(condition) ==>
              Narrowed(f, condition).First() == Err(NoResultFound) &&
              Narrowed(f, condition).Last() == Err(NoResultFound)
  {
  }

  /** Giving `where` an expression keeps every document, whatever the expression says of it. */
  lemma WhereIgnoresExpression<D>(f: QueryFilter<D>, e: Expr)
    ensures Narrowed(f, Predicate(e)) == f
  {
  }

  /** Concretely: selecting `a == 1` from documents with `a` equal to 1 and 2 keeps both. */
  lemma WhereKeepsNonMatchingDocument()
    ensures var docs := [map["a" := PyInt(1)], map["a" := PyInt(2)]];
            Eval(Eq("a", PyInt(1)), docs[1]) == Ok(false) &&
            Narrowed(QueryFilter(docs, docs), Predicate(Eq("a", PyInt(1)))).All() == docs
  {
  }

  // ---------------------------------------------------------------------------
  // The evidently intended `where`: evaluate the expression on each document.

  /**
   * The documents of `docs` the expression holds for, in order; the first
   * document whose evaluation raises makes the whole selection raise.
   */
  function Matching(docs: seq<Attrs>, e: Expr): Result<seq<Attrs>>
    decreases |docs|
  {
    if docs == [] then Ok([])
    else
      var prefix := Matching(docs[..|docs| - 1], e);
      if prefix.Err? then prefix
      else
        var verdict := Eval(e, docs[|docs| - 1]);
        if verdict.Err? then Err(verdict.error)
        else if verdict.value then Ok(prefix.value + [docs[|docs| - 1]])
        else prefix
  }

  /** The selection succeeds exactly when the expression evaluates on every document. */
  lemma {:induction false} MatchingSucceeds(docs: seq<Attrs>, e: Expr)
    ensures Matching(docs, e).Ok? <==> forall k :: 0 <= k < |docs| ==> Eval(e, docs[k]).Ok?
    decreases |docs|
  {
    if docs != [] {
      var init := docs[..|docs| - 1];
      MatchingSucceeds(init, e);
      if Matching(docs, e).Ok? {
        forall k | 0 <= k < |docs| ensures Eval(e, docs[k]).Ok? {
          if k < |init| {
            assert docs[k] == init[k];
          }
        }
      } else if Matching(init, e).Err? {
        var k :| 0 <= k < |init| && !Eval(e, init[k]).Ok?;
        assert docs[k] == init[k];
      }
    }
  }

  /** `xs` is `ys` with some elements left out: its elements appear in `ys` in the same order. */
  predicate IsSubsequence<T(==)>(xs: seq<T>, ys: seq<T>)
    decreases |ys|
  {
    xs == [] ||
    (ys != [] &&
     ((xs[|xs| - 1] == ys[|ys| - 1] && IsSubsequence(xs[..|xs| - 1], ys[..|ys| - 1])) ||
      IsSubsequence(xs, ys[..|ys| - 1])))
  }

  /**
   * A successful selection keeps each document the expression is true of as
   * often as it occurs in `docs`, and no other document.
   */
  lemma MatchingSelects(docs: seq<Attrs>, e: Expr)
    requires Matching(docs, e).Ok?
    ensures forall d :: multiset(Matching(docs, e).value)[d] ==
                          if Eval(e, d) == Ok(true) then multiset(docs)[d] else 0
    ensures forall d :: d in Matching(docs, e).value ==> Eval(e, d) == Ok(true)
    ensures forall k :: 0 <= k < |docs| && Eval(e, docs[k]) == Ok(true) ==> docs[k] in Matching(docs, e).value
  {
    MatchingCounts(docs, e);
    forall k | 0 <= k < |docs| && Eval(e, docs[k]) == Ok(true) ensures docs[k] in Matching(docs, e).value {
      assert multiset(docs)[docs[k]] > 0;
    }
  }

  /** How often a document occurs in a successful selection. */
  lemma {:induction false} MatchingCounts(docs: seq<Attrs>, e: Expr)
    requires Matching(docs, e).Ok?
    ensures forall d :: multiset(Matching(docs, e).value)[d] ==
                          if Eval(e, d) == Ok(true) then multiset(docs)[d] else 0
    decreases |docs|
  {
    if docs != [] {
      var init := docs[..|docs| - 1];
      var last := docs[|docs| - 1];
      MatchingLast(docs, e);
      MatchingCounts(init, e);
      assert docs == init + [last];
      var keep := Eval(e, last) == Ok(true);
      forall d ensures multiset(Matching(docs, e).value)[d] ==
                         if Eval(e, d) == Ok(true) then multiset(docs)[d] else 0 {
        CountStep(init, last, Matching(init, e).value, Matching(docs, e).value, keep, d);
      }
    }
  }

  /** A successful selection over a non-empty list extends the one over all but the last document. */
  lemma MatchingLast(docs: seq<Attrs>, e: Expr)
    requires docs != [] && Matching(docs, e).Ok?
    ensures Matching(docs[..|docs| - 1], e).Ok?
    ensures Matching(docs, e).value ==
              if Eval(e, docs[|docs| - 1]) == Ok(true)
              then Matching(docs[..|docs| - 1], e).value + [docs[|docs| - 1]]
              else Matching(docs[..|docs| - 1], e).value
  {
  }

  /** How often `d` occurs after one document is appended to the input and perhaps to the selection. */
  lemma CountStep(init: seq<Attrs>, last: Attrs, before: seq<Attrs>, kept: seq<Attrs>, keep: bool, d: Attrs)
    requires kept == if keep then before + [last] else before
    ensures multiset(init + [last])[d] == multiset(init)[d] + (if d == last then 1 else 0)
    ensures multiset(kept)[d] == multiset(before)[d] + (if keep && d == last then 1 else 0)
  {
  }

  /** A successful selection lists its documents in the order they have in `docs`. */
  lemma {:induction false} MatchingKeepsOrder(docs: seq<Attrs>, e: Expr)
    requires Matching(docs, e).Ok?
    ensures IsSubsequence(Matching(docs, e).value, docs)
    decreases |docs|
  {
    if docs != [] {
      var init := docs[..|docs| - 1];
      MatchingKeepsOrder(init, e);
      var kept := Matching(docs, e).value;
      var before := Matching(init, e).value;
      if Eval(e, docs[|docs| - 1]) == Ok(true) {
        assert kept[..|kept| - 1] == before;
      }
    }
  }

  /**
   * `where` as evidently intended: the documents of the current selection for
   * which the expression evaluates to true, or the error of the first document
   * on which it raises. The original documents are carried over.
   */
  method WhereMatching(f: QueryFilter<Attrs>, e: Expr) returns (r: Result<QueryFilter<Attrs>>)
    ensures r.Ok? <==> Matching(f.modified, e).Ok?
    ensures r.Ok? ==> r.value == QueryFilter(f.original, Matching(f.modified, e).value)
    ensures r.Err? ==> r.error == Matching(f.modified, e).error
  {
    var result: seq<Attrs> := [];
    var i := 0;
    while i < |f.modified|
      invariant 0 <= i <= |f.modified|
      invariant Matching(f.modified[..i], e) == Ok(result)
    {
      var verdict := Eval(e, f.modified[i]);
      assert f.modified[..i + 1][..i] == f.modified[..i];
      if verdict.Err? {
        assert Matching(f.modified, e) == Err(verdict.error) by {
          MatchingFirstError(f.modified, e, i + 1);
        }
        return Err(verdict.error);
      }
      if verdict.value {
        result := result + [f.modified[i]];
      }
      i := i + 1;
    }
    assert f.modified[..i] == f.modified;
    r := Ok(QueryFilter(f.original, result));
  }

  /** Once a prefix raises, the whole selection raises the same error. */
  lemma {:induction false} MatchingFirstError(docs: seq<Attrs>, e: Expr, i: nat)
    requires i <= |docs| && Matching(docs[..i], e).Err?
    ensures Matching(docs, e) == Matching(docs[..i], e)
    decreases |docs| - i
  {
    if i < |docs| {
      assert docs[..i + 1][..i] == docs[..i];
      MatchingFirstError(docs, e, i + 1);
    } else {
      assert docs[..i] == docs;
    }
  }
}

=== FILE: orm.dfy ===
/**
 * Documents and their attribute descriptors. A document carries a lifecycle
 * status and the names of the fields changed so far, in the order they were
 * first changed; its attribute values live in the instance dictionary.
 * Writing a Field records its name, writing a Relationship does not.
 */
module Orm {
  import opened Runtime
  import opened Enums

  predicate IsUpperAscii(c: char) {
    'A' <= c <= 'Z'
  }

  /** `str.lower` on ASCII letters. */
  function LowerAscii(s: string): (r: string)
    ensures |r| == |s|
    ensures forall k :: 0 <= k < |r| ==> !IsUpperAscii(r[k])
    ensures forall k :: 0 <= k < |s| && !IsUpperAscii(s[k]) ==> r[k] == s[k]
    ensures forall k :: 0 <= k < |s| && IsUpperAscii(s[k]) ==> r[k] as int == s[k] as int + 32
  {
    seq(|s|, k requires 0 <= k < |s| => if IsUpperAscii(s[k]) then (s[k] as int + 32) as char else s[k])
  }

  /** Lower-casing a lower-case name leaves it alone. */
  lemma LowerAsciiIdempotent(s: string)
    ensures LowerAscii(LowerAscii(s)) == LowerAscii(s)
  {
  }

  predicate NoDuplicates(names: seq<string>) {
    forall i, j :: 0 <= i < j < |names| ==> names[i] != names[j]
  }

  /** The changed-field list after a Field named `name` is written. */
  function TrackChange(changed: seq<string>, name: string): (r: seq<string>)
    ensures name in r
    ensures forall n :: n in r <==> n in changed || n == name
    ensures |changed| <= |r| && r[..|changed|] == changed
    ensures NoDuplicates(changed) ==> NoDuplicates(r)
    ensures name in changed ==> r == changed
    ensures name !in changed ==> r == changed + [name]
  {
    if name in changed then changed else changed + [name]
  }

  /** The changed-field list after Fields named `names` are written one after another. */
  function TrackChanges(changed: seq<string>, names: seq<string>): seq<string>
    decreases |names|
  {
    if names == [] then changed
    else TrackChange(TrackChanges(changed, names[..|names| - 1]), names[|names| - 1])
  }

  /** Position of the first occurrence of `n` in `names`. */
  function FirstIndex(names: seq<string>, n: string): (k: nat)
    requires n in names
    ensures k < |names| && names[k] == n
    ensures forall j :: 0 <= j < k ==> names[j] != n
  {
    if names[0] == n then 0 else 1 + FirstIndex(names[1..], n)
  }

  /**
   * Starting from an empty list, writing the fields `names` in turn lists every
   * written name exactly once, in the order of its first write.
   */
  lemma {:induction false} ChangedFieldsInFirstWriteOrder(names: seq<string>)
    ensures NoDuplicates(TrackChanges([], names))
    ensures forall n :: n in TrackChanges([], names) <==> n in names
    ensures forall i, j :: 0 <= i < j < |TrackChanges([], names)| ==>
              FirstIndex(names, TrackChanges([], names)[i]) < FirstIndex(names, TrackChanges([], names)[j])
  {
    ChangedFieldsListWrittenNames(names);
    ChangedFieldsOrdered(names);
  }

  /** The listed names are exactly the written ones, each listed once. */
  lemma {:induction false} ChangedFieldsListWrittenNames(names: seq<string>)
    ensures NoDuplicates(TrackChanges([], names))
    ensures forall n :: n in TrackChanges([], names) <==> n in names
    decreases |names|
  {
    if names != [] {
      var init := names[..|names| - 1];
      ChangedFieldsListWrittenNames(init);
      assert names == init + [names[|names| - 1]];
    }
  }

  /** The listed names appear in the order of their first write. */
  lemma {:induction false} ChangedFieldsOrdered(names: seq<string>)
    ensures forall n :: n in TrackChanges([], names) ==> n in names
    ensures forall i, j :: 0 <= i < j < |TrackChanges([], names)| ==>
              FirstIndex(names, TrackChanges([], names)[i]) < FirstIndex(names, TrackChanges([], names)[j])
    decreases |names|
  {
    if names != [] {
      var init := names[..|names| - 1];
      var last := names[|names| - 1];
      ChangedFieldsOrdered(init);
      ChangedFieldsListWrittenNames(init);
      var before := TrackChanges([], init);
      var after := TrackChanges([], names);
      assert after == TrackChange(before, last);
      assert names == init + [last];
      forall i, j | 0 <= i < j < |after|
        ensures FirstIndex(names, after[i]) < FirstIndex(names, after[j])
      {
        assert after[i] == before[i] && before[i] in init;
        FirstIndexOfPrefix(init, last, after[i]);
        if j < |before| {
          assert after[j] == before[j];
          FirstIndexOfPrefix(init, last, after[j]);
        } else {
          FirstIndexOfPrefixMissing(init, last);
        }
      }
    }
  }

  lemma FirstIndexOfPrefix(init: seq<string>, last: string, n: string)
    requires n in init
    ensures n in init + [last] && FirstIndex(init + [last], n) == FirstIndex(init, n)
  {
    var names := init + [last];
    var k := FirstIndex(init, n);
    assert names[k] == n;
  }

  lemma FirstIndexOfPrefixMissing(init: seq<string>, last: string)
    requires last !in init
    ensures FirstIndex(init + [last], last) == |init|
  {
  }

  /**
   * Base class of every stored document. `className` and `documentName` stand
   * for the subclass's name and its optional `__documentname__`.
   */
  class Document {
    const className: string
    const documentName: Option<string>
    var status: DocumentStatus
    var changedFields: seq<string>
    var values: map<string, Value>

    /** `__init__`: a new document with no changes recorded. */
    constructor (className: string, documentName: Option<string>)
      ensures this.className == className && this.documentName == documentName
      ensures status == New && changedFields == [] && values == map[]
    {
      this.className := className;
      this.documentName := documentName;
      status := New;
      changedFields := [];
      values := map[];
    }

    /** `get_document_name`: the declared name if any, else the lower-cased class name. */
    function DocumentName(): (name: string)
      ensures documentName.Some? ==> name == documentName.value
      ensures documentName.Nothing? ==> name == LowerAscii(className)
    {
      match documentName
      case Some(n) => n
      case Nothing => LowerAscii(className)
    }

    /** `Field.__get__` / `Relationship.__get__`: the stored value; KeyError if never written. */
    function Get(name: string): (r: Result<Value>)
      reads this
      ensures r.Ok? <==> name in values
      ensures r.Ok? ==> r.value == values[name]
      ensures r.Err? ==> r.error == KeyError
    {
      if name in values then Ok(values[name]) else Err(KeyError)
    }

    /** `Field.__set__`: record the name on its first write, then store the value. */
    method SetField(name: string, value: Value)
      modifies this
      ensures changedFields == TrackChange(old(changedFields), name)
      ensures name in old(changedFields) ==> changedFields == old(changedFields)
      ensures name !in old(changedFields) ==> changedFields == old(changedFields) + [name]
      ensures NoDuplicates(old(changedFields)) ==> NoDuplicates(changedFields)
      ensures values == old(values)[name := value]
      ensures Get(name) == Ok(value)
      ensures forall n :: n != name ==> Get(n) == old(Get(n))
      ensures status == old(status)
    {
      if name !in changedFields {
        changedFields := changedFields + [name];
      }
      values := values[name := value];
    }

    /** `Relationship.__set__`: store the value; nothing is tracked. */
    method SetRelationship(name: string, value: Value)
      modifies this
      ensures values == old(values)[name := value]
      ensures Get(name) == Ok(value)
      ensures forall n :: n != name ==> Get(n) == old(Get(n))
      ensures changedFields == old(changedFields) && status == old(status)
    {
      values := values[name := value];
    }
  }

  /**
   * The scenario of the repository's test `test_changed_data_fields_modified_model`:
   * a modified document whose two fields are written, its change list reset,
   * and the fields rewritten one after the other.
   */
  method ChangedFieldsModifiedModel() {
    var doc := new Document("TestDoc", Some("test_doc"));
    doc.status := Mod;
    doc.SetField("testfield_1", PyStr("hello"));
    doc.SetField("testfield_2", PyInt(2));
    assert doc.values == map["testfield_1" := PyStr("hello"), "testfield_2" := PyInt(2)];
    doc.changedFields := [];
    doc.SetField("testfield_1", PyStr("world"));
    assert doc.changedFields == ["testfield_1"];
    assert doc.values == map["testfield_1" := PyStr("world"), "testfield_2" := PyInt(2)];
    doc.SetField("testfield_2", PyInt(3));
    assert doc.changedFields == ["testfield_1", "testfield_2"];
    assert doc.Get("testfield_1") == Ok(PyStr("world")) && doc.Get("testfield_2") == Ok(PyInt(3));
    assert doc.status == Mod;
  }

  /** Rewriting a listed field or writing a relationship records nothing; names default to the class name. */
  method RewritesAndRelationships() {
    var doc := new Document("TestDoc", Some("test_doc"));
    doc.SetField("testfield_1", PyStr("hello"));
    doc.SetField("testfield_1", PyStr("again"));
    assert doc.changedFields == ["testfield_1"];
    doc.SetRelationship("testRel_1", PyNone);
    assert doc.changedFields == ["testfield_1"] && doc.status == New;
    var other := new Document("NameTestDoc", Nothing);
    assert other.DocumentName() == LowerAscii("NameTestDoc");
  }
}

=== FILE: runtime.dfy ===
/**
 * The slice of Python's runtime that the document store's core relies on:
 * the values a document attribute can hold, the exceptions the core raises,
 * and a Result type standing for "returns a value or raises".
 */
module Runtime {

  /** A Python value as stored in a document attribute or passed to a query. */
  datatype Value =
    | PyNone
    | PyBool(b: bool)
    | PyInt(i: int)
    | PyStr(s: string)
    | PyList(items: seq<Value>)

  /** The exceptions raised by the modelled code. */
  datatype PyError =
    | ValueError       // int() on text that is not a number
    | TypeError        // ordering comparison or containment between unsupported types
    | AttributeError   // a missing attribute, or a serializer given the wrong type
    | KeyError         // a descriptor read of a slot that was never written
    | NoResultFound    // first()/last() on an empty query result

  /** Either the value a Python call returns or the exception it raises. */
  datatype Result<T> = Ok(value: T) | Err(error: PyError)

  datatype Option<T> = Nothing | Some(value: T)

  /** A document as seen by a query: its attribute names and their values. */
  type Attrs = map<string, Value>

  /** `isinstance(v, int)`: in Python a bool is an int. */
  predicate IsNumber(v: Value) {
    v.PyInt? || v.PyBool?
  }

  /** The integer a number stands for (`True` is 1, `False` is 0). */
  function Num(v: Value): int
    requires IsNumber(v)
  {
    if v.PyInt? then v.i else if v.b then 1 else 0
  }

  /** Python truth value testing (`if v:`) of a value. */
  predicate Truthy(v: Value) {
    match v
    case PyNone => false
    case PyBool(b) => b
    case PyInt(i) => i != 0
    case PyStr(s) => s != ""
    case PyList(items) => items != []
  }
}

module Enums {

  /** Lifecycle status of a document. */
  datatype DocumentStatus = New | Sync | Mod | Del
}
